=== FILE: README.md ===
# Netguru Capistrano recipe, modelled in Dafny

The Netguru recipe (`lib/netguru/capistrano.rb`) is loaded into a Capistrano
configuration. It registers the settings every Netguru deployment shares:
- the GitHub repository locator built from the application name;
- a default `staging` stage;
- `rails_env`, `user` and `deploy_to`, derived from the stage and application;
- the promotion table that says which branch each stage merges from;
- one webserver pool for the `db`, `app` and `web` roles;
- the release-path aliases;
- the `RAILS_ENV=<stage> bundle exec` runner prefix.

It then defines the `deploy` tasks (`setup`, `update_code`, `restart`, and the
empty `symlink` and `migrate`) and the `netguru` tasks (`start_solr`,
`update_crontab`, `restart_dj`, `precompile`, `backup`, `notify_airbrake`,
`secondcoder`). Each task is a few shell command strings handed to `run`. Two
of them are gated on the stage.

The model has seven modules:

- `RubyCore` (`ruby_core.dfy`): the Ruby behaviour the recipe relies on.
  - String and Symbol values: interpolation sees only the text, and a Symbol is never `==` to a String.
  - `Array#join`, and the reading that cuts a joined list back into its items.
  - `File.join` on POSIX separators.
  - `String#strip`.
- `CommandLists` (`command_lists.dfy`): the command strings as POSIX shell lists joined by `&&` or `;`.
  - Which simple commands run, given which ones would succeed.
  - The exit status of the whole list.
- `Recipe` (`recipe.dfy`): the value of every setting once the recipe is loaded, as a pure function `Derive` of the inputs.
- `VariableTable` (`variable_table.dfy`): Capistrano's mutable configuration.
  - A `Configuration` class holds a variable table and a role table, and its `Set` and `Role` methods change them.
  - `set(:x) { ... }` stores a block that is evaluated when the variable is fetched.
  - `LoadInto` performs the recipe's settings block, step by step.
  - Lemmas prove that fetching from the loaded table gives exactly `Recipe.Derive`.
- `Tasks` (`tasks.dfy`): each task's command lists, the stage gates and the setup directory loop.
  - A `Shell` log of the commands issued.
  - The secondcoder acknowledgement check.
- `TaskText` (`task_text.dfy`): every operator in the recipe's command lists is spelled as that operator, so each list's steps and operators fix the text handed to `run`.
- `Wrappers` (`wrappers.dfy`): `Option` and `Outcome`.

Two values come from outside the recipe and are parameters of the model:
- `capture`: the output of `git rev-parse HEAD` on the host, as a function from command to output.
- `get`: the body the secondcoder check URL returns, as a function from URL to body.

The recipe validates nothing:
- A stage outside the promotion table gets the empty branch (`nil.to_s`); no error is raised.
  - `Recipe.UnknownStageHasEmptyBranch` states this.
  - `Tasks.SetupSequence` shows that setup then merges `origin/`.
- The application name is not checked for emptiness or for characters that are unsafe in a path or URL.

## Model

| member | source | states |
|---|---|---|
| Recipe.RepositoryRoundTrip | lib/netguru/capistrano.rb:16 | the repository locator, read back between its `git@github.com:netguru/` prefix and `.git` suffix, gives the application's name |
| Recipe.RepositoryFromLocator | lib/netguru/capistrano.rb:16 | every locator of that shape is the locator of the name it carries, so the template is a bijection between names and such locators |
| Recipe.DerivedSettings | lib/netguru/capistrano.rb:16-39 | the stage defaults to "staging" when none was set and is otherwise kept; rails_env is the stage; user is the application; deploy_to is /home/user/app; the remote is origin; runner is RAILS_ENV=stage bundle exec; the three release aliases equal current_path |
| Recipe.PromotionChain | lib/netguru/capistrano.rb:23-24 | production merges from qa, qa from staging, staging from master; master has no entry |
| Recipe.BranchIgnoresValueKind | lib/netguru/capistrano.rb:24 | because of `to_sym`, a String stage and a Symbol stage with the same name get the same branch |
| Recipe.UnknownStageHasEmptyBranch | lib/netguru/capistrano.rb:24 | the branch is the empty string exactly for stage names outside production, qa and staging |
| Recipe.NoStageMergesItself | lib/netguru/capistrano.rb:23-24 | no named stage is promoted from a branch with its own name |
| Recipe.BranchFor | lib/netguru/capistrano.rb:24 | the promotion lookup; its values are stated by `Recipe.PromotionChain`, `Recipe.UnknownStageHasEmptyBranch` and `Recipe.BranchIgnoresValueKind` |
| Recipe.Repository | lib/netguru/capistrano.rb:16 | the locator `git@github.com:netguru/<application>.git`; stated by `Recipe.RepositoryRoundTrip`, `Recipe.RepositoryFromLocator` and `Recipe.DerivedSettings` |
| Recipe.DeployTo | lib/netguru/capistrano.rb:21 | `/home/<user>/app`; stated by `Recipe.DerivedSettings` |
| Recipe.RevisionQuery | lib/netguru/capistrano.rb:31 | the command captured for the revision, `cd <current_path>; git rev-parse HEAD`; stated by `Tasks.NotifyAirbrakeReportsRevision` |
| Recipe.Runner | lib/netguru/capistrano.rb:39 | `RAILS_ENV=<stage> bundle exec`; stated by `Recipe.DerivedSettings` |
| Recipe.Derive | lib/netguru/capistrano.rb:16-39 | every setting once the recipe is loaded; stated by `Recipe.DerivedSettings`, and against the variable table by `VariableTable.LoadedTableResolves` |
| VariableTable.Configuration.Set | lib/netguru/capistrano.rb:16 | `set` replaces one variable and leaves every other variable and the roles unchanged |
| VariableTable.Configuration.Exists | lib/netguru/capistrano.rb:18 | `exists?`: whether the table holds the variable; its use in the stage default is stated by `VariableTable.LoadInto` and `VariableTable.StageDefaultOnlyWhenAbsent` |
| VariableTable.Configuration.Role | lib/netguru/capistrano.rb:26-28 | `role` appends one server definition to that role and changes nothing else |
| VariableTable.LoadInto | lib/netguru/capistrano.rb:16-39 | when application can be fetched, the settings block leaves exactly the table `Loaded` and the roles `LoadedRoles`; otherwise the first `set` fails and nothing changes |
| VariableTable.StageDefaulted | lib/netguru/capistrano.rb:16-18 | the table after the repository and default-stage `set` calls; stated by `VariableTable.StageDefaultedEntries` |
| VariableTable.StageDefaultedEntries | lib/netguru/capistrano.rb:16-18 | the first two calls add the repository and, only when no stage exists, the "staging" stage; every other variable is kept |
| VariableTable.Loaded | lib/netguru/capistrano.rb:16-39 | the table the settings block leaves; stated by `VariableTable.LoadedEntries` and `VariableTable.StageDefaultOnlyWhenAbsent`, and produced step by step by `VariableTable.LoadInto` |
| VariableTable.LoadedRoles | lib/netguru/capistrano.rb:26-28 | the role table the three `role` calls leave; stated by `VariableTable.RolesShareWebserver` |
| VariableTable.Resolve | lib/netguru/capistrano.rb:19-39 | `fetch`: a stored value, or its block evaluated against the current table; stated by `VariableTable.RecipeEntriesResolve` and `VariableTable.LoadedTableResolves` |
| VariableTable.Evaluate | lib/netguru/capistrano.rb:19-39 | the recipe's four kinds of block (fetch, interpolation, branch lookup, stripped capture); stated by `VariableTable.RecipeEntriesResolve` |
| VariableTable.LoadedEntries | lib/netguru/capistrano.rb:16-39 | the loaded table adds exactly the recipe's thirteen keys, holds the recipe's value or block under each, keeps every other variable, and keeps an existing stage |
| VariableTable.StageDefaultOnlyWhenAbsent | lib/netguru/capistrano.rb:18 | after loading a stage exists; it is "staging" when none existed, and an existing stage is left as it was |
| VariableTable.RecipeEntriesResolve | lib/netguru/capistrano.rb:19-39 | in any table holding the recipe's entries, each deferred block fetches the value built from the current stage, user and current_path |
| VariableTable.LoadedTableResolves | lib/netguru/capistrano.rb:16-39 | fetching each setting from the loaded table gives the value `Recipe.Derive` gives it, so the table model and the pure model agree |
| VariableTable.DeferredSettingsFollowStage | lib/netguru/capistrano.rb:19 | rails_env, branch and runner are blocks: a stage set after loading, before their first fetch, is what they then fetch |
| VariableTable.RolesShareWebserver | lib/netguru/capistrano.rb:26-28 | db (marked primary), app and web each gain one definition that fetches `webserver`, and in the loaded table each of the three evaluates to the webserver the deploy configuration set; no other role changes |
| RubyCore.FileJoin | lib/netguru/capistrano.rb:45 | the joined path ends with the child name and is shared_path up to its trailing separators followed by separators only; for a relative child it is shared_path, one '/' only when shared_path does not already end in one, then the child; an absolute child replaces shared_path's trailing separators |
| RubyCore.Join | lib/netguru/capistrano.rb:46 | `dirs.join(' ')`; stated by `RubyCore.JoinFieldsRoundTrip` |
| RubyCore.JoinFieldsRoundTrip | lib/netguru/capistrano.rb:46 | joining items with a single character and cutting at it gives the items back when no item contains the character |
| RubyCore.Strip | lib/netguru/capistrano.rb:31 | the result is trimmed and is the input with only whitespace removed at each end |
| RubyCore.StripUnique | lib/netguru/capistrano.rb:31 | whitespace, then a trimmed core, then whitespace, strips to that core |
| RubyCore.StripLine | lib/netguru/capistrano.rb:31 | a trimmed line followed by a newline strips to the line |
| CommandLists.RenderDetermined | lib/netguru/capistrano.rb:46-92 | two lists with the same simple commands and the same operator text render to the same string given to `run` |
| CommandLists.AndListFailsFast | lib/netguru/capistrano.rb:60 | in a list joined only by `&&`, a command runs exactly when every earlier command succeeded, and the list succeeds exactly when all succeed |
| CommandLists.AfterSemicolonRuns | lib/netguru/capistrano.rb:49 | a command that follows `;` runs whatever happened before |
| CommandLists.TrueTailSucceeds | lib/netguru/capistrano.rb:72 | a list ending in `; true` succeeds whatever its other commands do |
| Tasks.ScopeOf | lib/netguru/capistrano.rb:43-75 | exactly setup, update_code and restart skip `no_release` servers; update_crontab is the only task restricted to a role, and that role is web |
| Tasks.SetupDirs | lib/netguru/capistrano.rb:44-45 | setup's directory list; stated by `Tasks.SetupDirectoryArguments` and computed by the loop `Tasks.SetupDirectories` |
| Tasks.SetupScripts | lib/netguru/capistrano.rb:46-49 | setup's four command lists, steps and operator text (" && " in the first; " && ", " ; ", "; " in the last); stated by `Tasks.SetupDirectoryArguments`, `Tasks.SetupSequence` and `Tasks.SetupPushesRegardless` |
| Tasks.UpdateCodeScripts | lib/netguru/capistrano.rb:60 | steps and the four " && " between them; stated by `Tasks.UpdateCodeFailsFast` |
| Tasks.RestartScripts | lib/netguru/capistrano.rb:65 | stated by `Tasks.RestartTouchesMarker` |
| Tasks.StartSolrScripts | lib/netguru/capistrano.rb:72 | steps and operator text " && ", " ;"; stated by `Tasks.StartSolrIsBestEffort` |
| Tasks.UpdateCrontabScripts | lib/netguru/capistrano.rb:76 | steps and operator text " && "; stated by `Tasks.CrontabGate` and `Tasks.WorkRunsInCurrentPath` |
| Tasks.RestartDjScripts | lib/netguru/capistrano.rb:80 | steps and operator text "; "; stated by `Tasks.RestartDjIgnoresCd` |
| Tasks.PrecompileScripts | lib/netguru/capistrano.rb:84 | stated by `Tasks.WorkRunsInCurrentPath`: its steps are cd into current_path and runner rake assets:precompile, joined by " && ", so rake runs only after a successful cd |
| Tasks.BackupScripts | lib/netguru/capistrano.rb:88 | steps and operator text " && "; stated by `Tasks.BackupGate` and `Tasks.WorkRunsInCurrentPath` |
| Tasks.NotifyAirbrakeScripts | lib/netguru/capistrano.rb:92 | steps and operator text " && "; stated by `Tasks.NotifyAirbrakeReportsRevision` and `Tasks.WorkRunsInCurrentPath` |
| Tasks.Scripts | lib/netguru/capistrano.rb:43-93 | each task's command lists, symlink and migrate having none; stated by `Tasks.CommandCounts`, the per-task lemmas and `TaskText.ScriptsSpelled` |
| Tasks.Commands | lib/netguru/capistrano.rb:43-93 | the strings handed to `run`; `Tasks.Invoke` issues exactly these, `Tasks.CommandCounts` states how many, and since the per-task lemmas fix each list's steps and operator text, `CommandLists.RenderDetermined` fixes each string |
| TaskText.ScriptsSpelled | lib/netguru/capistrano.rb:46-92 | every link of every command list a task runs is spelled as its operator: `&&` as " && ", `;` as " ; ", "; " or " ;" |
| Tasks.SharedDirs | lib/netguru/capistrano.rb:45 | shared_path joined with each shared child, in order; stated by `Tasks.SetupDirectoryArguments` |
| Tasks.Shell.Run | lib/netguru/capistrano.rb:46-49 | `run` appends its command to the issued log and changes nothing else; used by `Tasks.Invoke` |
| Tasks.CrontabStage | lib/netguru/capistrano.rb:76 | the crontab gate; stated by `Tasks.CrontabGate` and `Tasks.SymbolStageSkipsGates` |
| Tasks.BackupStage | lib/netguru/capistrano.rb:88 | the backup gate; stated by `Tasks.BackupGate` and `Tasks.SymbolStageSkipsGates` |
| Tasks.RestartTouchesMarker | lib/netguru/capistrano.rb:65 | restart issues one command, touch of tmp/restart.txt under current_path, with no list operator, so its status is the touch's own |
| Tasks.SetupDirectories | lib/netguru/capistrano.rb:44-45 | the loop builds deploy_to, shared_path, then shared_path joined with each shared child in order |
| Tasks.Invoke | lib/netguru/capistrano.rb:43-93 | running a task appends exactly its commands to the issued log, in order, and removes nothing |
| Tasks.Secondcoder | lib/netguru/capistrano.rb:97-98 | the check passes exactly when the response is "OK"; otherwise the error message is exactly "Computer says no!", a newline, then the response |
| Tasks.SecondcoderUrl | lib/netguru/capistrano.rb:97 | the URL is the secondcoder API prefix, the application's name, then "/check" |
| Tasks.SecondcoderTask | lib/netguru/capistrano.rb:96-98 | secondcoder passes exactly when the body fetched from the application's check URL is "OK" |
| Tasks.SecondcoderRejectsEmpty | lib/netguru/capistrano.rb:98 | the empty response fails and "OK" passes |
| Tasks.CrontabGate | lib/netguru/capistrano.rb:76 | update_crontab issues one command exactly when the stage is the String "qa" or "production", and none otherwise; the command runs whenever in current_path |
| Tasks.BackupGate | lib/netguru/capistrano.rb:88 | backup issues one command exactly when the stage is the String "production" or "beta", and none otherwise; the command runs astrails-safe in current_path |
| Tasks.SymbolStageSkipsGates | lib/netguru/capistrano.rb:76-88 | a Symbol stage gets the same branch as the String of that name but opens neither gate |
| Tasks.CommandCounts | lib/netguru/capistrano.rb:43-93 | symlink and migrate always issue nothing; update_crontab and backup issue nothing exactly when their gate is closed; setup issues four commands and every other task one |
| Tasks.SetupDirectoryArguments | lib/netguru/capistrano.rb:44-46 | mkdir -p and chmod g+w get the same list, joined with `&&`; the list is deploy_to, shared_path, then each shared child under shared_path; with no space in any directory, the list cuts back into exactly those directories |
| Tasks.SetupSequence | lib/netguru/capistrano.rb:46-49 | setup's second to fourth commands, in order: keyscan into the user's known_hosts, clone the repository into current_path, then cd, create the stage branch, merge remote/branch and push the stage branch |
| Tasks.UpdateCodeFailsFast | lib/netguru/capistrano.rb:60 | update_code's steps are cd, fetch, checkout, merge and push; each runs only if every earlier step succeeded, and the command succeeds only if all do |
| Tasks.SetupPushesRegardless | lib/netguru/capistrano.rb:49 | in setup's last command, checkout runs only after a successful cd, but merge and push always run, and the push alone decides the status |
| Tasks.StartSolrIsBestEffort | lib/netguru/capistrano.rb:72 | start_solr's steps are cd into current_path, runner rake sunspot:solr:start and true; it succeeds whatever cd and rake do, and rake runs only after a successful cd |
| Tasks.WorkRunsInCurrentPath | lib/netguru/capistrano.rb:76-92 | the whenever, precompile, astrails-safe and airbrake steps follow a cd into current_path and run only when it succeeded; for precompile the steps are exactly that cd and runner rake assets:precompile |
| Tasks.RestartDjIgnoresCd | lib/netguru/capistrano.rb:80 | restart_dj's steps are cd into current_path and runner script/delayed_job restart, joined with `;`, so the restart runs even when the cd fails, and its status decides the command's status |
| Tasks.NotifyAirbrakeReportsRevision | lib/netguru/capistrano.rb:92 | when the host prints a trimmed revision and a newline, the current_revision setting is that revision, and it is the REVISION the airbrake step reports, with the stage and repository |

## Left out

- The Rails generator `lib/generators/netguru/netguru_generator.rb`: it copies template files and prints instructions.
- Executing commands: `run` and `capture` are Capistrano's.
  - The model records the strings a task hands to `run` (`Tasks.Shell`), not what the hosts do.
  - It does not model task dispatch, ordering between tasks or fan-out to the hosts of a role.
  - `capture` is a parameter.
  - The meaning of the command text under a POSIX shell is modelled separately, in `CommandLists`.
- The HTTP GET in `secondcoder`: network I/O. It is a parameter `get` from URL to response body.
- The load-path and `require` lines (lib/netguru/capistrano.rb:10-13) and the loader hook (lib/netguru/capistrano.rb:109-111): these are Ruby and Capistrano plumbing.
- Capistrano's defaults for `current_path`, `shared_path` and `shared_children`: they are not part of this model, and are inputs.
- `webserver` is set by the deploy configuration, not by the recipe; it is an input, and a single value, not a server list.
- VariableTable.Resolve: Capistrano caches a block's value on its first fetch, while `Resolve` evaluates the block again on every fetch.
  - The two differ only when a variable a block reads (`stage`) is set again after that block's first fetch.
  - The model counts nested evaluations with a `depth` bound.
  - A fetch that would need more nesting than `depth` gives `None` in the model. The recipe's own settings need at most two levels.
- VariableTable.LoadInto: only a missing `application` is modelled as a failing step. Errors raised inside a deferred block surface later, at fetch time.
- RubyCore.FileJoin: handles only '/' as a separator. Ruby's `File.join` on Windows also treats '\\'.
- RubyCore.Strip: uses the whitespace set of current Ruby (NUL, tab, line feed, vertical tab, form feed, carriage return, space). Older Ruby versions removed leading NUL differently.
- Tasks.Commands: interpolated values are taken as given. Shell metacharacters in an application name, stage or path are not quoted, and the model does not reason about them.

=== FILE: command_lists.dfy ===
/**
 * The shape of the command strings the recipe hands to `run`: a POSIX shell
 * list of simple commands joined by "&&" or ";", and what such a list does.
 * After "&&" a command runs only when the last command that ran succeeded;
 * after ";" it runs regardless; the list's status is that of the last
 * command that ran.
 */
module CommandLists {

  /** The two list operators the recipe writes. */
  datatype Op = AndThen | Then

  /** One link of a list: its operator, the operator as spelled in the
      recipe (spacing included), and the simple command that follows. */
  datatype Link = Link(op: Op, spelling: string, command: string)

  datatype CommandList = CommandList(first: string, links: seq<Link>)

  function RenderLinks(links: seq<Link>): string
  {
    if links == [] then "" else links[0].spelling + links[0].command + RenderLinks(links[1..])
  }

  /** The exact text given to `run`. */
  function Render(c: CommandList): string
  {
    c.first + RenderLinks(c.links)
  }

  /** The simple commands of the list, in order. */
  function Steps(c: CommandList): seq<string>
  {
    [c.first] + seq(|c.links|, i requires 0 <= i < |c.links| => c.links[i].command)
  }

  /** The operator text of each link, in order. */
  function Spellings(c: CommandList): seq<string>
  {
    seq(|c.links|, i requires 0 <= i < |c.links| => c.links[i].spelling)
  }

  /** The text of a link is the operator it stands for: "&&" with a space on
      each side, or ";" with a space on one side or both. */
  predicate Spelled(l: Link)
  {
    if l.op == AndThen then l.spelling == " && "
    else l.spelling == " ; " || l.spelling == "; " || l.spelling == " ;"
  }

  /** For each link, whether its command runs, given whether each command
      would succeed if it ran and the status of the last command that ran. */
  function Trace(links: seq<Link>, succeeds: seq<bool>, last: bool): (ran: seq<bool>)
    requires |succeeds| == |links|
    ensures |ran| == |links|
  {
    if links == [] then []
    else
      var runs := links[0].op == Then || last;
      [runs] + Trace(links[1..], succeeds[1..], if runs then succeeds[0] else last)
  }

  /** The status of the last command that ran. */
  function Status(links: seq<Link>, succeeds: seq<bool>, last: bool): bool
    requires |succeeds| == |links|
  {
    if links == [] then last
    else
      var runs := links[0].op == Then || last;
      Status(links[1..], succeeds[1..], if runs then succeeds[0] else last)
  }

  /** Which of the list's commands run; the first one always does. */
  function Ran(c: CommandList, succeeds: seq<bool>): (ran: seq<bool>)
    requires |succeeds| == |c.links| + 1
    ensures |ran| == |succeeds|
  {
    [true] + Trace(c.links, succeeds[1..], succeeds[0])
  }

  /** Whether the whole list exits with status 0. */
  predicate Succeeds(c: CommandList, succeeds: seq<bool>)
    requires |succeeds| == |c.links| + 1
  {
    Status(c.links, succeeds[1..], succeeds[0])
  }

  /** An outcome assignment in which the shell builtin `true` succeeds. */
  predicate TrueSucceeds(c: CommandList, succeeds: seq<bool>)
    requires |succeeds| == |c.links| + 1
  {
    forall k :: 0 <= k < |succeeds| ==> Steps(c)[k] == "true" ==> succeeds[k]
  }

  predicate AllAndThen(links: seq<Link>)
  {
    forall i :: 0 <= i < |links| ==> links[i].op == AndThen
  }

  // ------------------------------------------------------------ lemmas on links

  lemma {:induction false} RenderLinksDetermined(a: seq<Link>, b: seq<Link>)
    requires |a| == |b|
    requires forall i :: 0 <= i < |a| ==> a[i].spelling == b[i].spelling && a[i].command == b[i].command
    ensures RenderLinks(a) == RenderLinks(b)
  {
    if a != [] {
      assert forall i :: 0 <= i < |a| - 1 ==> a[1..][i] == a[i + 1] && b[1..][i] == b[i + 1];
      RenderLinksDetermined(a[1..], b[1..]);
      assert RenderLinks(a) == a[0].spelling + a[0].command + RenderLinks(a[1..]);
      assert RenderLinks(b) == b[0].spelling + b[0].command + RenderLinks(b[1..]);
    }
  }

  /** The text given to `run` is fixed by the simple commands and the
      operator text between them. */
  lemma RenderDetermined(c1: CommandList, c2: CommandList)
    requires Steps(c1) == Steps(c2) && Spellings(c1) == Spellings(c2)
    ensures Render(c1) == Render(c2)
  {
    assert |c1.links| == |c2.links| by {
      assert |Steps(c1)| == |Steps(c2)|;
    }
    forall i | 0 <= i < |c1.links|
      ensures c1.links[i].spelling == c2.links[i].spelling && c1.links[i].command == c2.links[i].command
    {
      assert Steps(c1)[i + 1] == Steps(c2)[i + 1];
      assert Spellings(c1)[i] == Spellings(c2)[i];
    }
    RenderLinksDetermined(c1.links, c2.links);
    assert c1.first == Steps(c1)[0] == Steps(c2)[0] == c2.first;
  }

  lemma {:induction false} AndChainTrace(links: seq<Link>, succeeds: seq<bool>, last: bool, k: nat)
    requires |succeeds| == |links| && AllAndThen(links) && k < |links|
    ensures Trace(links, succeeds, last)[k] == (last && forall j :: 0 <= j < k ==> succeeds[j])
  {
    if k > 0 {
      var next := if last then succeeds[0] else last;
      AndChainTrace(links[1..], succeeds[1..], next, k - 1);
      assert forall j :: 0 <= j < k - 1 ==> succeeds[1..][j] == succeeds[j + 1];
    }
  }

  lemma {:induction false} AndChainStatus(links: seq<Link>, succeeds: seq<bool>, last: bool)
    requires |succeeds| == |links| && AllAndThen(links)
    ensures Status(links, succeeds, last) == (last && forall j :: 0 <= j < |links| ==> succeeds[j])
  {
    if links != [] {
      var next := if last then succeeds[0] else last;
      AndChainStatus(links[1..], succeeds[1..], next);
      assert forall j :: 0 <= j < |links| - 1 ==> succeeds[1..][j] == succeeds[j + 1];
    }
  }

  lemma {:induction false} ThenAlwaysRuns(links: seq<Link>, succeeds: seq<bool>, last: bool, k: nat)
    requires |succeeds| == |links| && k < |links| && links[k].op == Then
    ensures Trace(links, succeeds, last)[k]
  {
    if k > 0 {
      var runs := links[0].op == Then || last;
      ThenAlwaysRuns(links[1..], succeeds[1..], if runs then succeeds[0] else last, k - 1);
    }
  }

  lemma {:induction false} ThenDecidesStatus(links: seq<Link>, succeeds: seq<bool>, last: bool)
    requires |succeeds| == |links| && links != [] && links[|links| - 1].op == Then
    ensures Status(links, succeeds, last) == succeeds[|links| - 1]
  {
    if |links| > 1 {
      var runs := links[0].op == Then || last;
      ThenDecidesStatus(links[1..], succeeds[1..], if runs then succeeds[0] else last);
    }
  }

  // ------------------------------------------------------------ lemmas on lists

  /** In a list joined only by "&&", a command runs exactly when every command
      before it succeeded, and the list succeeds exactly when all of them do. */
  lemma AndListFailsFast(c: CommandList, succeeds: seq<bool>)
    requires |succeeds| == |c.links| + 1 && AllAndThen(c.links)
    ensures forall k :: 0 <= k < |succeeds| ==>
      Ran(c, succeeds)[k] == (forall j :: 0 <= j < k ==> succeeds[j])
    ensures Succeeds(c, succeeds) == (forall j :: 0 <= j < |succeeds| ==> succeeds[j])
  {
    var rest := succeeds[1..];
    forall k | 0 < k < |succeeds|
      ensures Ran(c, succeeds)[k] == (forall j :: 0 <= j < k ==> succeeds[j])
    {
      AndChainTrace(c.links, rest, succeeds[0], k - 1);
      assert forall j :: 0 <= j < k - 1 ==> rest[j] == succeeds[j + 1];
    }
    AndChainStatus(c.links, rest, succeeds[0]);
    assert forall j :: 0 <= j < |rest| ==> rest[j] == succeeds[j + 1];
  }

  /** A command that follows ";" runs whatever happened before it. */
  lemma AfterSemicolonRuns(c: CommandList, succeeds: seq<bool>, k: nat)
    requires |succeeds| == |c.links| + 1 && 0 < k < |succeeds| && c.links[k - 1].op == Then
    ensures Ran(c, succeeds)[k]
  {
    ThenAlwaysRuns(c.links, succeeds[1..], succeeds[0], k - 1);
  }

  /** A list whose last link is "; true" succeeds whatever its other commands do. */
  lemma TrueTailSucceeds(c: CommandList, succeeds: seq<bool>)
    requires |succeeds| == |c.links| + 1 && TrueSucceeds(c, succeeds)
    requires c.links != [] && c.links[|c.links| - 1].op == Then
    requires c.links[|c.links| - 1].command == "true"
    ensures Succeeds(c, succeeds)
  {
    assert Steps(c)[|c.links|] == "true";
    ThenDecidesStatus(c.links, succeeds[1..], succeeds[0]);
  }
}

=== FILE: recipe.dfy ===
/**
 * The settings the Netguru recipe derives when it is loaded into a
 * Capistrano configuration: the repository locator, the stage and the
 * names derived from it, the deploy user and directory, the branch a stage
 * is promoted from, the release-path aliases and the `runner` prefix.
 *
 * Derive gives the value every setting has once the recipe is loaded; the
 * module VariableTable shows that fetching the settings from Capistrano's
 * mutable variable table yields exactly these values.
 */
module Recipe {
  import opened Wrappers
  import opened RubyCore

  /** What the deploy configuration and Capistrano supply before the recipe
      is loaded. */
  datatype Inputs = Inputs(
    application: Value,           // set :application
    stage: Option<Value>,         // set :stage, when the deploy configuration sets it
    webserver: Value,             // set :webserver
    currentPath: string,          // Capistrano's current_path
    sharedPath: string,           // Capistrano's shared_path
    sharedChildren: seq<string>)  // Capistrano's shared_children

  /** Every value a task may fetch once the recipe is loaded. */
  datatype Settings = Settings(
    application: Value,
    repository: string,
    stage: Value,
    railsEnv: Value,
    user: Value,
    deployTo: string,
    branch: string,
    remote: string,
    scm: Value,
    currentRevision: string,
    latestRelease: string,
    releasePath: string,
    currentRelease: string,
    runner: string,
    webserver: Value,
    currentPath: string,
    sharedPath: string,
    sharedChildren: seq<string>)

  const REPOSITORY_PREFIX := "git@github.com:netguru/"
  const REPOSITORY_SUFFIX := ".git"
  const DEFAULT_STAGE := Str("staging")
  const HOME_PREFIX := "/home/"
  const APP_SUFFIX := "/app"
  const REMOTE := "origin"
  const RUNNER_PREFIX := "RAILS_ENV="
  const RUNNER_SUFFIX := " bundle exec"
  const REVISION_PREFIX := "cd "
  const REVISION_SUFFIX := "; git rev-parse HEAD"

  /** The promotion table, keyed by the stage's symbol name: each stage merges
      from the branch of the stage below it. */
  const BRANCHES: map<string, string> :=
    map["production" := "qa", "qa" := "staging", "staging" := "master"]

  /** set :repository, "git@github.com:netguru/#{application}.git" */
  function Repository(application: Value): string
  {
    REPOSITORY_PREFIX + application.text + REPOSITORY_SUFFIX
  }

  /** The application a repository locator names, when it has the recipe's shape. */
  function ApplicationOf(locator: string): Option<string>
  {
    if |locator| >= |REPOSITORY_PREFIX| + |REPOSITORY_SUFFIX|
       && locator[..|REPOSITORY_PREFIX|] == REPOSITORY_PREFIX
       && locator[|locator| - |REPOSITORY_SUFFIX|..] == REPOSITORY_SUFFIX
    then Some(locator[|REPOSITORY_PREFIX|..|locator| - |REPOSITORY_SUFFIX|])
    else None
  }

  /** branches[stage.to_sym].to_s: nil.to_s, the empty string, for a stage
      outside the table. */
  function BranchFor(stage: Value): string
  {
    if stage.text in BRANCHES then BRANCHES[stage.text] else ""
  }

  /** "/home/#{user}/app" */
  function DeployTo(user: Value): string
  {
    HOME_PREFIX + user.text + APP_SUFFIX
  }

  /** "RAILS_ENV=#{stage} bundle exec" */
  function Runner(stage: Value): string
  {
    RUNNER_PREFIX + stage.text + RUNNER_SUFFIX
  }

  /** The command captured on the host to learn the deployed revision. */
  function RevisionQuery(currentPath: string): string
  {
    REVISION_PREFIX + currentPath + REVISION_SUFFIX
  }

  /** The settings once the recipe is loaded; capture gives the output of a
      command run on the host (the revision query). */
  function Derive(inp: Inputs, capture: string -> string): Settings
  {
    var stage := if inp.stage.Some? then inp.stage.value else DEFAULT_STAGE;
    Settings(
      application := inp.application,
      repository := Repository(inp.application),
      stage := stage,
      railsEnv := stage,
      user := inp.application,
      deployTo := DeployTo(inp.application),
      branch := BranchFor(stage),
      remote := REMOTE,
      scm := Sym("git"),
      currentRevision := Strip(capture(RevisionQuery(inp.currentPath))),
      latestRelease := inp.currentPath,
      releasePath := inp.currentPath,
      currentRelease := inp.currentPath,
      runner := Runner(stage),
      webserver := inp.webserver,
      currentPath := inp.currentPath,
      sharedPath := inp.sharedPath,
      sharedChildren := inp.sharedChildren)
  }

  // ------------------------------------------------------------ repository

  /** The locator names the application back: reading it gives the
      application's text. */
  lemma RepositoryRoundTrip(application: Value)
    ensures ApplicationOf(Repository(application)) == Some(application.text)
  {
    var loc := Repository(application);
    assert loc[..|REPOSITORY_PREFIX|] == REPOSITORY_PREFIX;
    assert loc[|loc| - |REPOSITORY_SUFFIX|..] == REPOSITORY_SUFFIX;
    assert loc[|REPOSITORY_PREFIX|..|loc| - |REPOSITORY_SUFFIX|] == application.text;
  }

  /** Every locator of the recipe's shape is the locator of the application it names. */
  lemma RepositoryFromLocator(locator: string)
    requires ApplicationOf(locator).Some?
    ensures Repository(Str(ApplicationOf(locator).value)) == locator
  {
    var p, q := |REPOSITORY_PREFIX|, |REPOSITORY_SUFFIX|;
    assert locator == locator[..p] + locator[p..|locator| - q] + locator[|locator| - q..];
  }

  // ------------------------------------------------------------ stages and branches

  /** Derived settings: the stage defaults to "staging" exactly when none was
      set and is kept otherwise; rails_env is the stage; the user is the
      application and deploy_to is /home/<user>/app; the three release
      aliases are current_path. */
  lemma DerivedSettings(inp: Inputs, capture: string -> string)
    ensures var s := Derive(inp, capture);
      && (inp.stage.None? ==> s.stage == Str("staging"))
      && (inp.stage.Some? ==> s.stage == inp.stage.value)
      && s.railsEnv == s.stage
      && s.repository == "git@github.com:netguru/" + inp.application.text + ".git"
      && s.user == inp.application
      && s.deployTo == "/home/" + s.user.text + "/app"
      && s.branch == BranchFor(s.stage)
      && s.remote == "origin"
      && s.runner == "RAILS_ENV=" + s.railsEnv.text + " bundle exec"
      && s.latestRelease == s.releasePath == s.currentRelease == s.currentPath == inp.currentPath
  {
  }

  /** production merges from qa, qa from staging, staging from master, and
      master is the end of the chain. */
  lemma PromotionChain()
    ensures BranchFor(Str("production")) == "qa"
    ensures BranchFor(Str("qa")) == "staging"
    ensures BranchFor(Str("staging")) == "master"
    ensures BranchFor(Str("master")) == ""
  {
  }

  /** The lookup normalises the stage with to_sym: a String stage and a
      Symbol stage with the same name get the same branch. */
  lemma BranchIgnoresValueKind(name: string)
    ensures BranchFor(Str(name)) == BranchFor(Sym(name))
  {
  }

  /** The branch is empty exactly for the stages outside the table. */
  lemma UnknownStageHasEmptyBranch(stage: Value)
    ensures BranchFor(stage) == "" <==> stage.text !in {"production", "qa", "staging"}
  {
  }

  /** No stage with a name is promoted from a branch of its own name: setup
      and update_code check out the stage's branch and merge the remote's
      `branch` into it, so this keeps that merge from being a branch merged
      into itself. */
  lemma NoStageMergesItself(stage: Value)
    requires stage.text != ""
    ensures BranchFor(stage) != stage.text
  {
  }
}

=== FILE: ruby_core.dfy ===
/**
 * The few pieces of Ruby's core library that the recipe relies on when it
 * builds setting values and command strings: String and Symbol values,
 * Array#join, File.join and String#strip.
 */
module RubyCore {

  /** A setting value as the recipe handles it: a Ruby String or a Ruby Symbol.
      Interpolation ("#{v}"), to_s and to_sym see only the text, but a Symbol
      is never == to a String with the same text. */
  datatype Value = Str(text: string) | Sym(text: string)

  // ---------------------------------------------------------------- Array#join

  /** Array#join: the items with sep between neighbours ("" for no items). */
  function Join(items: seq<string>, sep: string): string
  {
    if |items| == 0 then ""
    else if |items| == 1 then items[0]
    else items[0] + sep + Join(items[1..], sep)
  }

  /** Cutting s at every occurrence of c, keeping empty fields; the way a
      reader separates a list that was joined with the single character c. */
  function Fields(s: string, c: char): (r: seq<string>)
    ensures |r| >= 1
  {
    if |s| == 0 then [""]
    else
      var rest := Fields(s[1..], c);
      if s[0] == c then [""] + rest else [[s[0]] + rest[0]] + rest[1..]
  }

  lemma {:induction false} FieldsWithoutSeparator(a: string, c: char)
    requires c !in a
    ensures Fields(a, c) == [a]
  {
    if |a| > 0 {
      FieldsWithoutSeparator(a[1..], c);
      assert [a[0]] + a[1..] == a;
    }
  }

  lemma {:induction false} FieldsAfterSeparator(a: string, b: string, c: char)
    requires c !in a
    ensures Fields(a + [c] + b, c) == [a] + Fields(b, c)
  {
    var s := a + [c] + b;
    if |a| == 0 {
      assert s[1..] == b;
    } else {
      assert s[1..] == a[1..] + [c] + b;
      FieldsAfterSeparator(a[1..], b, c);
      assert [a[0]] + a[1..] == a;
    }
  }

  /** Joining with a single character and cutting at that character gives the
      items back, as long as no item contains the character. */
  lemma {:induction false} JoinFieldsRoundTrip(items: seq<string>, c: char)
    requires |items| >= 1
    requires forall i :: 0 <= i < |items| ==> c !in items[i]
    ensures Fields(Join(items, [c]), c) == items
  {
    if |items| == 1 {
      FieldsWithoutSeparator(items[0], c);
    } else {
      JoinFieldsRoundTrip(items[1..], c);
      FieldsAfterSeparator(items[0], Join(items[1..], [c]), c);
      assert [items[0]] + items[1..] == items;
    }
  }

  // ---------------------------------------------------------------- File.join

  /** Where the trailing run of '/' of s begins (|s| when s does not end in
      '/'); the position Ruby's chompdirsep finds. */
  function TrailingSepStart(s: string): (k: nat)
    ensures k <= |s|
    ensures forall i :: k <= i < |s| ==> s[i] == '/'
    ensures k == 0 || s[k - 1] != '/'
  {
    if |s| == 0 || s[|s| - 1] != '/' then |s| else TrailingSepStart(s[..|s| - 1])
  }

  /** File.join(dir, name) on a POSIX system: a name that starts with '/'
      replaces the trailing separators of dir; otherwise a '/' is added only
      when dir does not already end in one. */
  function FileJoin(dir: string, name: string): (r: string)
    ensures |r| >= |name| && r[|r| - |name|..] == name
    ensures var k := TrailingSepStart(dir);
      k < |r| && r[..k] == dir[..k] && r[k] == '/'
    ensures var k := TrailingSepStart(dir);
      forall i :: k <= i < |r| - |name| ==> r[i] == '/'
    ensures (|name| == 0 || name[0] != '/') ==>
      |r| == |dir| + (if TrailingSepStart(dir) == |dir| then 1 else 0) + |name| && r[..|dir|] == dir
    ensures |name| > 0 && name[0] == '/' ==> |r| == TrailingSepStart(dir) + |name|
  {
    var k := TrailingSepStart(dir);
    if |name| > 0 && name[0] == '/' then dir[..k] + name
    else if k == |dir| then dir + "/" + name
    else dir + name
  }

  // ---------------------------------------------------------------- String#strip

  /** String#strip's whitespace: NUL, tab, line feed, vertical tab, form feed,
      carriage return and space. */
  predicate IsSpace(c: char)
  {
    c == '\0' || c == '\t' || c == '\n' || c == '\U{B}' || c == '\U{C}' || c == '\r' || c == ' '
  }

  /** No whitespace at either end. */
  predicate Trimmed(s: string)
  {
    s == [] || (!IsSpace(s[0]) && !IsSpace(s[|s| - 1]))
  }

  function TrimStart(s: string): (r: string)
    ensures |r| <= |s| && r == s[|s| - |r|..]
    ensures forall i :: 0 <= i < |s| - |r| ==> IsSpace(s[i])
    ensures r == [] || !IsSpace(r[0])
  {
    if |s| > 0 && IsSpace(s[0]) then TrimStart(s[1..]) else s
  }

  function TrimEnd(s: string): (r: string)
    ensures |r| <= |s| && r == s[..|r|]
    ensures forall i :: |r| <= i < |s| ==> IsSpace(s[i])
    ensures r == [] || !IsSpace(r[|r| - 1])
  {
    if |s| > 0 && IsSpace(s[|s| - 1]) then TrimEnd(s[..|s| - 1]) else s
  }

  /** String#strip: s without its leading and trailing whitespace. */
  function Strip(s: string): (r: string)
    ensures Trimmed(r)
    ensures var a := |s| - |TrimStart(s)|;
      && a + |r| <= |s|
      && r == s[a..a + |r|]
      && (forall i :: 0 <= i < a ==> IsSpace(s[i]))
      && (forall i :: a + |r| <= i < |s| ==> IsSpace(s[i]))
  {
    TrimEnd(TrimStart(s))
  }

  /** The contract of Strip pins its result down: whenever s is whitespace,
      then a trimmed core, then whitespace, Strip(s) is that core. */
  lemma StripUnique(s: string, lead: string, core: string, trail: string)
    requires s == lead + core + trail
    requires forall i :: 0 <= i < |lead| ==> IsSpace(lead[i])
    requires forall i :: 0 <= i < |trail| ==> IsSpace(trail[i])
    requires Trimmed(core)
    ensures Strip(s) == core
  {
    if core != [] {
      assert s[|lead|] == core[0];
      assert s[|lead| + |core| - 1] == core[|core| - 1];
    }
  }

  /** What `git rev-parse HEAD` prints is the revision and a newline; strip
      gives the revision back. */
  lemma StripLine(line: string)
    requires Trimmed(line)
    ensures Strip(line + "\n") == line
  {
    StripUnique(line + "\n", "", line, "\n");
  }
}

=== FILE: task_text.dfy ===
/**
 * The operator text of the recipe's command lists: every "&&" the recipe
 * writes is spelled " && ", every ";" is spelled with a space on one side
 * or both, so the text handed to `run` follows from a task's steps and
 * operators (CommandLists.RenderDetermined).
 */
module TaskText {
  import opened CommandLists
  import opened Recipe
  import opened Tasks

  /** Each link of each command list a task runs is spelled as its operator. */
  lemma ScriptsSpelled(t: Task, s: Settings)
    ensures forall i, j :: 0 <= i < |Scripts(t, s)| && 0 <= j < |Scripts(t, s)[i].links| ==>
      Spelled(Scripts(t, s)[i].links[j])
  {
  }
}

=== FILE: tasks.dfy ===
/**
 * The recipe's tasks: the command lists each one hands to `run`, the stage
 * gates of update_crontab and backup, and the secondcoder acknowledgement
 * check. Every task reads the settings the recipe derived (Recipe.Settings).
 */
module Tasks {
  import opened Wrappers
  import opened RubyCore
  import opened CommandLists
  import opened Recipe

  datatype Task =
    // namespace :deploy
    | Setup | Symlink | Migrate | UpdateCode | Restart
    // namespace :netguru
    | StartSolr | UpdateCrontab | RestartDj | Precompile | Backup | NotifyAirbrake

  /** The options a task is declared with: the role it is restricted to, and
      whether it skips servers marked :no_release. */
  datatype Scope = Scope(role: Option<string>, exceptNoRelease: bool)

  function ScopeOf(t: Task): (scope: Scope)
    ensures scope.exceptNoRelease <==> t in {Setup, UpdateCode, Restart}
    ensures scope.role.Some? <==> t == UpdateCrontab
    ensures t == UpdateCrontab ==> scope.role == Some("web")
  {
    match t
    case Setup => Scope(None, true)
    case UpdateCode => Scope(None, true)
    case Restart => Scope(None, true)
    case UpdateCrontab => Scope(Some("web"), false)
    case _ => Scope(None, false)
  }

  /** ["qa", "production"].include?(fetch(:stage)) */
  predicate CrontabStage(stage: Value)
  {
    stage == Str("qa") || stage == Str("production")
  }

  /** stage == 'production' or stage == 'beta' */
  predicate BackupStage(stage: Value)
  {
    stage == Str("production") || stage == Str("beta")
  }

  /** A link spelled " && ". */
  function Chained(command: string): Link
  {
    Link(AndThen, " && ", command)
  }

  /** shared_path joined with each shared child, in order. */
  function SharedDirs(s: Settings): seq<string>
  {
    seq(|s.sharedChildren|, i requires 0 <= i < |s.sharedChildren| => FileJoin(s.sharedPath, s.sharedChildren[i]))
  }

  /** The directories setup creates: deploy_to, shared_path, then the shared
      children under shared_path. */
  function SetupDirs(s: Settings): seq<string>
  {
    [s.deployTo, s.sharedPath] + SharedDirs(s)
  }

  /** The four command lists of deploy:setup, given its directory list. */
  function SetupScripts(s: Settings, dirs: seq<string>): seq<CommandList>
  {
    var list := Join(dirs, " ");
    [ CommandList("mkdir -p " + list, [Chained("chmod g+w " + list)]),
      CommandList("ssh-keyscan github.com >> /home/" + s.user.text + "/.ssh/known_hosts", []),
      CommandList("git clone " + s.repository + " " + s.currentPath, []),
      CommandList("cd " + s.currentPath,
        [ Chained("git checkout -b " + s.stage.text),
          Link(Then, " ; ", "git merge " + s.remote + "/" + s.branch),
          Link(Then, "; ", "git push " + s.remote + " " + s.stage.text) ]) ]
  }

  function UpdateCodeScripts(s: Settings): seq<CommandList>
  {
    [CommandList("cd " + s.currentPath,
      [ Chained("git fetch " + s.remote),
        Chained("git checkout " + s.stage.text + " -f"),
        Chained("git merge " + s.remote + "/" + s.branch),
        Chained("git push " + s.remote + " " + s.stage.text) ])]
  }

  function RestartScripts(s: Settings): seq<CommandList>
  {
    [CommandList("touch " + s.currentPath + "/tmp/restart.txt", [])]
  }

  function StartSolrScripts(s: Settings): seq<CommandList>
  {
    [CommandList("cd " + s.currentPath, [Chained(s.runner + " rake sunspot:solr:start"), Link(Then, " ;", "true")])]
  }

  function UpdateCrontabScripts(s: Settings): seq<CommandList>
  {
    if CrontabStage(s.stage) then
      [CommandList("cd " + s.currentPath,
        [Chained(s.runner + " whenever --update-crontab " + s.application.text + " --set environment=" + s.stage.text)])]
    else []
  }

  function RestartDjScripts(s: Settings): seq<CommandList>
  {
    [CommandList("cd " + s.currentPath, [Link(Then, "; ", s.runner + " script/delayed_job restart")])]
  }

  function PrecompileScripts(s: Settings): seq<CommandList>
  {
    [CommandList("cd " + s.currentPath, [Chained(s.runner + " rake assets:precompile")])]
  }

  function BackupScripts(s: Settings): seq<CommandList>
  {
    if BackupStage(s.stage) then
      [CommandList("cd " + s.currentPath, [Chained("astrails-safe -v config/safe.rb --local")])]
    else []
  }

  function NotifyAirbrakeScripts(s: Settings): seq<CommandList>
  {
    [CommandList("cd " + s.currentPath,
      [Chained(s.runner + " rake airbrake:deploy TO=" + s.stage.text
               + " REVISION=" + s.currentRevision + " REPO=" + s.repository)])]
  }

  /** The command lists a task runs, in order; empty for a task whose body is
      empty or whose stage gate is closed. */
  function Scripts(t: Task, s: Settings): seq<CommandList>
  {
    match t
    case Setup => SetupScripts(s, SetupDirs(s))
    case Symlink => []
    case Migrate => []
    case UpdateCode => UpdateCodeScripts(s)
    case Restart => RestartScripts(s)
    case StartSolr => StartSolrScripts(s)
    case UpdateCrontab => UpdateCrontabScripts(s)
    case RestartDj => RestartDjScripts(s)
    case Precompile => PrecompileScripts(s)
    case Backup => BackupScripts(s)
    case NotifyAirbrake => NotifyAirbrakeScripts(s)
  }

  /** The strings a task passes to `run`, in order. */
  function Commands(t: Task, s: Settings): seq<string>
  {
    var scripts := Scripts(t, s);
    seq(|scripts|, i requires 0 <= i < |scripts| => Render(scripts[i]))
  }

  // ------------------------------------------------------------ imperative part

  /** dirs = [deploy_to, shared_path]; dirs += shared_children.map { ... } */
  method SetupDirectories(s: Settings) returns (dirs: seq<string>)
    ensures |dirs| == |s.sharedChildren| + 2
    ensures dirs[0] == s.deployTo && dirs[1] == s.sharedPath
    ensures dirs == SetupDirs(s)
  {
    dirs := [s.deployTo, s.sharedPath];
    var shared: seq<string> := [];
    for i := 0 to |s.sharedChildren|
      invariant shared == SharedDirs(s)[..i]
    {
      shared := shared + [FileJoin(s.sharedPath, s.sharedChildren[i])];
    }
    assert shared == SharedDirs(s);
    dirs := dirs + shared;
  }

  /** The commands handed to `run` so far, in order. */
  class Shell {
    var issued: seq<string>

    constructor ()
      ensures issued == []
    {
      issued := [];
    }

    method Run(command: string)
      modifies this
      ensures issued == old(issued) + [command]
    {
      issued := issued + [command];
    }
  }

  /** Running a task issues its commands, in order, and nothing else. */
  method Invoke(t: Task, s: Settings, shell: Shell)
    modifies shell
    ensures shell.issued == old(shell.issued) + Commands(t, s)
  {
    if t == Setup {
      var dirs := SetupDirectories(s);
      var scripts := SetupScripts(s, dirs);
      shell.Run(Render(scripts[0]));
      shell.Run(Render(scripts[1]));
      shell.Run(Render(scripts[2]));
      shell.Run(Render(scripts[3]));
    } else {
      var scripts := Scripts(t, s);
      if |scripts| == 1 {
        shell.Run(Render(scripts[0]));
      }
    }
  }

  // ------------------------------------------------------------ secondcoder

  const SECONDCODER_MESSAGE := "Computer says no!\n"

  /** The URL of the acknowledgement check for an application. */
  const SECONDCODER_PREFIX := "http://secondcoder.com/api/netguru/"
  const SECONDCODER_SUFFIX := "/check"

  function SecondcoderUrl(application: Value): (url: string)
    ensures |url| == |SECONDCODER_PREFIX| + |application.text| + |SECONDCODER_SUFFIX|
    ensures url[..|SECONDCODER_PREFIX|] == "http://secondcoder.com/api/netguru/"
    ensures url[|SECONDCODER_PREFIX|..|url| - |SECONDCODER_SUFFIX|] == application.text
    ensures url[|url| - |SECONDCODER_SUFFIX|..] == "/check"
  {
    SECONDCODER_PREFIX + application.text + SECONDCODER_SUFFIX
  }

  /** The check on the body the URL returned: only the literal "OK" passes;
      any other body raises an error whose message ends with that body. */
  function Secondcoder(response: string): (r: Outcome<string>)
    ensures r.Pass? <==> response == "OK"
    ensures r.Fail? ==> |r.error| == |SECONDCODER_MESSAGE| + |response|
    ensures r.Fail? ==> |r.error| >= |response| && r.error[|r.error| - |response|..] == response
    ensures r.Fail? ==> |r.error| >= |SECONDCODER_MESSAGE| && r.error[..|SECONDCODER_MESSAGE|] == "Computer says no!\n"
  {
    if response == "OK" then Pass else Fail(SECONDCODER_MESSAGE + response)
  }

  /** The secondcoder task: fetch the application's check URL (get stands for
      the HTTP GET) and check the body it returns. */
  function SecondcoderTask(application: Value, get: string -> string): (r: Outcome<string>)
    ensures r.Pass? <==> get("http://secondcoder.com/api/netguru/" + application.text + "/check") == "OK"
  {
    Secondcoder(get(SecondcoderUrl(application)))
  }

  // ------------------------------------------------------------ lemmas

  /** update_crontab issues its one command exactly when the stage is the
      String "qa" or "production"; that command runs whenever in current_path. */
  lemma CrontabGate(s: Settings)
    ensures |Commands(UpdateCrontab, s)| == (if s.stage == Str("qa") || s.stage == Str("production") then 1 else 0)
    ensures Scripts(UpdateCrontab, s) != [] ==>
      var c := Scripts(UpdateCrontab, s)[0];
      && AllAndThen(c.links)
      && Steps(c) == ["cd " + s.currentPath,
                      s.runner + " whenever --update-crontab " + s.application.text + " --set environment=" + s.stage.text]
      && Spellings(c) == [" && "]
  {
  }

  /** backup issues its one command exactly when the stage is the String
      "production" or "beta"; that command runs astrails-safe in current_path. */
  lemma BackupGate(s: Settings)
    ensures |Commands(Backup, s)| == (if s.stage == Str("production") || s.stage == Str("beta") then 1 else 0)
    ensures Scripts(Backup, s) != [] ==>
      var c := Scripts(Backup, s)[0];
      && AllAndThen(c.links)
      && Steps(c) == ["cd " + s.currentPath, "astrails-safe -v config/safe.rb --local"]
      && Spellings(c) == [" && "]
  {
  }

  /** A stage given as a Symbol gets its branch like the String of the same
      name, but opens neither gate: the gates compare with String literals. */
  lemma SymbolStageSkipsGates(s: Settings, name: string)
    requires s.stage == Sym(name)
    ensures BranchFor(s.stage) == BranchFor(Str(name))
    ensures Commands(Backup, s) == [] && Commands(UpdateCrontab, s) == []
  {
  }

  /** Which tasks issue no command: symlink and migrate always, update_crontab
      and backup when their gate is closed; setup issues four, every other
      task one. */
  lemma CommandCounts(t: Task, s: Settings)
    ensures Commands(t, s) == [] <==>
      || t in {Symlink, Migrate}
      || (t == UpdateCrontab && s.stage !in {Str("qa"), Str("production")})
      || (t == Backup && s.stage !in {Str("production"), Str("beta")})
    ensures t == Setup ==> |Commands(t, s)| == 4
    ensures t != Setup ==> |Commands(t, s)| <= 1
  {
  }

  /** Setup's first command makes and opens the same directory list:
      deploy_to, shared_path, then each shared child under shared_path; when
      no directory holds a space, cutting the list at spaces gives the
      directories back. */
  lemma SetupDirectoryArguments(s: Settings)
    ensures var c := Scripts(Setup, s)[0];
      var list := Join(SetupDirs(s), " ");
      && Steps(c) == ["mkdir -p " + list, "chmod g+w " + list]
      && Spellings(c) == [" && "]
      && AllAndThen(c.links)
    ensures var dirs := SetupDirs(s);
      && |dirs| == |s.sharedChildren| + 2 && dirs[0] == s.deployTo && dirs[1] == s.sharedPath
      && (forall i :: 0 <= i < |s.sharedChildren| ==> dirs[i + 2] == FileJoin(s.sharedPath, s.sharedChildren[i]))
    ensures (forall i :: 0 <= i < |SetupDirs(s)| ==> ' ' !in SetupDirs(s)[i]) ==>
      Fields(Join(SetupDirs(s), " "), ' ') == SetupDirs(s)
  {
    var dirs := SetupDirs(s);
    if forall i :: 0 <= i < |dirs| ==> ' ' !in dirs[i] {
      JoinFieldsRoundTrip(dirs, ' ');
    }
  }

  /** Setup's commands, in order: make the directories, trust github.com's
      host key in the deploy user's home, clone the repository into
      current_path, then create the stage branch, merge the promotion branch
      from the remote and push the stage branch. */
  lemma SetupSequence(s: Settings)
    ensures var c := Scripts(Setup, s);
      && |c| == 4
      && Commands(Setup, s)[1] == "ssh-keyscan github.com >> /home/" + s.user.text + "/.ssh/known_hosts"
      && Commands(Setup, s)[2] == "git clone " + s.repository + " " + s.currentPath
      && Steps(c[3]) == ["cd " + s.currentPath, "git checkout -b " + s.stage.text,
                         "git merge " + s.remote + "/" + s.branch, "git push " + s.remote + " " + s.stage.text]
      && c[3].links[0].op == AndThen && c[3].links[1].op == Then && c[3].links[2].op == Then
      && Spellings(c[3]) == [" && ", " ; ", "; "]
  {
    var scripts := Scripts(Setup, s);
    assert scripts == SetupScripts(s, SetupDirs(s));
    assert Render(scripts[1]) == scripts[1].first;
    assert Render(scripts[2]) == scripts[2].first;
  }

  /** restart touches tmp/restart.txt under current_path, a single command
      with no list operator, whose status is the touch's own. */
  lemma RestartTouchesMarker(s: Settings, succeeds: seq<bool>)
    requires |succeeds| == 1
    ensures Commands(Restart, s) == ["touch " + s.currentPath + "/tmp/restart.txt"]
    ensures Scripts(Restart, s)[0].links == []
    ensures Succeeds(Scripts(Restart, s)[0], succeeds) == succeeds[0]
  {
    assert Render(Scripts(Restart, s)[0]) == Scripts(Restart, s)[0].first;
  }

  /** update_code fails fast: each of fetch, checkout, merge and push runs only
      when every earlier step succeeded, and the command succeeds only when
      all five do. */
  lemma UpdateCodeFailsFast(s: Settings, succeeds: seq<bool>)
    requires |succeeds| == 5
    ensures var c := Scripts(UpdateCode, s)[0];
      && Steps(c) == ["cd " + s.currentPath, "git fetch " + s.remote, "git checkout " + s.stage.text + " -f",
                      "git merge " + s.remote + "/" + s.branch, "git push " + s.remote + " " + s.stage.text]
      && Spellings(c) == [" && ", " && ", " && ", " && "]
      && (forall k :: 0 <= k < 5 ==> Ran(c, succeeds)[k] == (forall j :: 0 <= j < k ==> succeeds[j]))
      && (Succeeds(c, succeeds) <==> forall j :: 0 <= j < 5 ==> succeeds[j])
  {
    AndListFailsFast(Scripts(UpdateCode, s)[0], succeeds);
  }

  /** Unlike update_code, setup's last command pushes whatever happened
      before: checkout -b runs only after a successful cd, but the merge and
      the push always run, and the push alone decides the status. */
  lemma SetupPushesRegardless(s: Settings, succeeds: seq<bool>)
    requires |succeeds| == 4
    ensures var c := Scripts(Setup, s)[3];
      && Ran(c, succeeds)[1] == succeeds[0]
      && Ran(c, succeeds)[2] && Ran(c, succeeds)[3]
      && (Succeeds(c, succeeds) <==> succeeds[3])
  {
    var c := Scripts(Setup, s)[3];
    AfterSemicolonRuns(c, succeeds, 2);
    AfterSemicolonRuns(c, succeeds, 3);
    ThenDecidesStatus(c.links, succeeds[1..], succeeds[0]);
  }

  /** start_solr is best-effort: its trailing "; true" makes it succeed
      whatever cd and rake do, and rake runs only after a successful cd. */
  lemma StartSolrIsBestEffort(s: Settings, succeeds: seq<bool>)
    requires |succeeds| == 3
    requires TrueSucceeds(Scripts(StartSolr, s)[0], succeeds)
    ensures Steps(Scripts(StartSolr, s)[0]) == ["cd " + s.currentPath, s.runner + " rake sunspot:solr:start", "true"]
    ensures Spellings(Scripts(StartSolr, s)[0]) == [" && ", " ;"]
    ensures Ran(Scripts(StartSolr, s)[0], succeeds)[1] == succeeds[0]
    ensures Succeeds(Scripts(StartSolr, s)[0], succeeds)
  {
    TrueTailSucceeds(Scripts(StartSolr, s)[0], succeeds);
  }

  /** The rake, whenever and astrails-safe steps run inside current_path: each
      follows "cd <current_path> &&" and runs only when that cd succeeded. */
  lemma WorkRunsInCurrentPath(t: Task, s: Settings, succeeds: seq<bool>)
    requires t in {UpdateCrontab, Precompile, Backup, NotifyAirbrake}
    requires Scripts(t, s) != [] && |succeeds| == 2
    ensures Scripts(t, s)[0].first == "cd " + s.currentPath
    ensures t == Precompile ==> Steps(Scripts(t, s)[0]) == ["cd " + s.currentPath, s.runner + " rake assets:precompile"]
    ensures Spellings(Scripts(t, s)[0]) == [" && "]
    ensures Ran(Scripts(t, s)[0], succeeds)[1] == succeeds[0]
  {
    AndListFailsFast(Scripts(t, s)[0], succeeds);
  }

  /** restart_dj joins its cd with ";": the delayed_job restart runs even when
      the cd fails. */
  lemma RestartDjIgnoresCd(s: Settings, succeeds: seq<bool>)
    requires |succeeds| == 2
    ensures Steps(Scripts(RestartDj, s)[0]) == ["cd " + s.currentPath, s.runner + " script/delayed_job restart"]
    ensures Spellings(Scripts(RestartDj, s)[0]) == ["; "]
    ensures Ran(Scripts(RestartDj, s)[0], succeeds)[1]
    ensures Succeeds(Scripts(RestartDj, s)[0], succeeds) == succeeds[1]
  {
    var c := Scripts(RestartDj, s)[0];
    AfterSemicolonRuns(c, succeeds, 1);
    ThenDecidesStatus(c.links, succeeds[1..], succeeds[0]);
  }

  /** notify_airbrake reports the revision the host printed, without the
      newline that `git rev-parse HEAD` ends its output with. */
  lemma NotifyAirbrakeReportsRevision(inp: Inputs, capture: string -> string, revision: string)
    requires Trimmed(revision)
    requires capture("cd " + inp.currentPath + "; git rev-parse HEAD") == revision + "\n"
    ensures var s := Derive(inp, capture);
      var c := Scripts(NotifyAirbrake, s)[0];
      && s.currentRevision == revision
      && AllAndThen(c.links)
      && Steps(c) == ["cd " + inp.currentPath, s.runner + " rake airbrake:deploy TO="
        + s.stage.text + " REVISION=" + revision + " REPO=" + s.repository]
      && Spellings(c) == [" && "]
  {
    var s := Derive(inp, capture);
    StripLine(revision);
    var query := RevisionQuery(inp.currentPath);
    assert query == "cd " + inp.currentPath + "; git rev-parse HEAD";
    assert s.currentRevision == Strip(capture(query));
    var c := NotifyAirbrakeScripts(s)[0];
    assert Scripts(NotifyAirbrake, s)[0] == c;
    assert Spellings(c) == [c.links[0].spelling];
  }

  /** The check fails on every body but "OK", the empty body included. */
  lemma SecondcoderRejectsEmpty()
    ensures Secondcoder("").Fail?
    ensures Secondcoder("OK").Pass?
  {
  }
}

=== FILE: variable_table.dfy ===
/**
 * Capistrano's configuration as the recipe changes it: a mutable table of
 * variables, where `set :name, value` stores a value and `set(:name) { ... }`
 * stores a block, which the model evaluates on every fetch (Capistrano keeps
 * the first value), and a
 * table of roles, where `role(:name, options) { ... }` appends a server
 * definition. LoadInto performs the recipe's settings block on such a
 * configuration.
 */
module VariableTable {
  import opened Wrappers
  import opened RubyCore
  import Recipe

  /** The deferred blocks the recipe registers. */
  datatype Block =
    | FetchOf(key: string)                                           // { fetch(:key) }
    | Interpolate(prefix: string, key: string, suffix: string)       // { "prefix#{fetch(:key)}suffix" }
    | BranchOfStage(key: string)                                     // { branches[fetch(:key).to_sym].to_s }
    | CaptureStripped(prefix: string, key: string, suffix: string)   // { capture("prefix#{key}suffix").strip }

  /** A variable holds a value now, or a block evaluated later. */
  datatype Setting = Now(value: Value) | Later(block: Block)

  /** One server definition of a role: the block that names the servers and
      whether the definition is marked :primary => true. */
  datatype RoleDef = RoleDef(servers: Block, primary: bool)

  /** fetch(key): a missing variable is an error (None). A block is evaluated
      against the current table; depth bounds how many blocks a single fetch
      may evaluate one inside another. */
  function Resolve(vars: map<string, Setting>, key: string, capture: string -> string, depth: nat): Option<Value>
    decreases depth, 0
  {
    if key !in vars then None
    else match vars[key]
      case Now(v) => Some(v)
      case Later(b) => if depth == 0 then None else Evaluate(vars, b, capture, depth - 1)
  }

  function Evaluate(vars: map<string, Setting>, b: Block, capture: string -> string, depth: nat): Option<Value>
    decreases depth, 1
  {
    match b
    case FetchOf(k) => Resolve(vars, k, capture, depth)
    case Interpolate(p, k, s) =>
      (match Resolve(vars, k, capture, depth)
       case None => None
       case Some(v) => Some(Str(p + v.text + s)))
    case BranchOfStage(k) =>
      (match Resolve(vars, k, capture, depth)
       case None => None
       case Some(v) => Some(Str(Recipe.BranchFor(v))))
    case CaptureStripped(p, k, s) =>
      (match Resolve(vars, k, capture, depth)
       case None => None
       case Some(v) => Some(Str(Strip(capture(p + v.text + s)))))
  }

  /** The server definitions registered so far for a role. */
  function Definitions(roles: map<string, seq<RoleDef>>, name: string): seq<RoleDef>
  {
    if name in roles then roles[name] else []
  }

  /** The variable table after the recipe's first two `set` calls: the
      repository, and the default stage unless a stage exists. */
  function StageDefaulted(vars: map<string, Setting>, app: Value): map<string, Setting>
  {
    var withRepository := vars["repository" := Now(Str(Recipe.Repository(app)))];
    if "stage" in withRepository then withRepository
    else withRepository["stage" := Now(Recipe.DEFAULT_STAGE)]
  }

  /** The variable table after the recipe's `set` calls, when `application`
      fetches as app. */
  function Loaded(vars: map<string, Setting>, app: Value): map<string, Setting>
  {
    StageDefaulted(vars, app)
      ["rails_env" := Later(FetchOf("stage"))]
      ["user" := Now(app)]
      ["deploy_to" := Later(Interpolate(Recipe.HOME_PREFIX, "user", Recipe.APP_SUFFIX))]
      ["branch" := Later(BranchOfStage("stage"))]
      ["remote" := Now(Str(Recipe.REMOTE))]
      ["current_revision" := Later(CaptureStripped(Recipe.REVISION_PREFIX, "current_path", Recipe.REVISION_SUFFIX))]
      ["scm" := Now(Sym("git"))]
      ["latest_release" := Later(FetchOf("current_path"))]
      ["release_path" := Later(FetchOf("current_path"))]
      ["current_release" := Later(FetchOf("current_path"))]
      ["runner" := Later(Interpolate(Recipe.RUNNER_PREFIX, "stage", Recipe.RUNNER_SUFFIX))]
  }

  /** The role table after the recipe's three `role` calls. */
  function LoadedRoles(roles: map<string, seq<RoleDef>>): map<string, seq<RoleDef>>
  {
    var withDb := roles["db" := Definitions(roles, "db") + [RoleDef(FetchOf("webserver"), true)]];
    var withApp := withDb["app" := Definitions(withDb, "app") + [RoleDef(FetchOf("webserver"), false)]];
    withApp["web" := Definitions(withApp, "web") + [RoleDef(FetchOf("webserver"), false)]]
  }

  class Configuration {
    var variables: map<string, Setting>
    var roles: map<string, seq<RoleDef>>

    /** A configuration holding what the deploy configuration set before
        loading the recipe. */
    constructor (preset: map<string, Setting>)
      ensures variables == preset && roles == map[]
    {
      variables := preset;
      roles := map[];
    }

    /** exists?(key) */
    predicate Exists(key: string)
      reads this
    {
      key in variables
    }

    /** set(key, setting) */
    method Set(key: string, setting: Setting)
      modifies this
      ensures variables == old(variables)[key := setting]
      ensures roles == old(roles)
    {
      variables := variables[key := setting];
    }

    /** role(name, :primary => primary) { servers } */
    method Role(name: string, servers: Block, primary: bool)
      modifies this
      ensures roles == old(roles)[name := Definitions(old(roles), name) + [RoleDef(servers, primary)]]
      ensures variables == old(variables)
    {
      roles := roles[name := Definitions(roles, name) + [RoleDef(servers, primary)]];
    }
  }

  /** The recipe's settings block. When `application` cannot be fetched the
      first `set` raises and nothing changes. */
  method LoadInto(c: Configuration, capture: string -> string, depth: nat) returns (loaded: bool)
    modifies c
    ensures loaded <==> Resolve(old(c.variables), "application", capture, depth).Some?
    ensures loaded ==> c.variables == Loaded(old(c.variables), Resolve(old(c.variables), "application", capture, depth).value)
    ensures loaded ==> c.roles == LoadedRoles(old(c.roles))
    ensures !loaded ==> c.variables == old(c.variables) && c.roles == old(c.roles)
  {
    var application := Resolve(c.variables, "application", capture, depth);
    if application.None? {
      return false;
    }
    var app := application.value;
    c.Set("repository", Now(Str(Recipe.Repository(app))));
    if !c.Exists("stage") {
      c.Set("stage", Now(Recipe.DEFAULT_STAGE));
    }
    c.Set("rails_env", Later(FetchOf("stage")));
    c.Set("user", Now(app));
    c.Set("deploy_to", Later(Interpolate(Recipe.HOME_PREFIX, "user", Recipe.APP_SUFFIX)));
    c.Set("branch", Later(BranchOfStage("stage")));
    c.Role("db", FetchOf("webserver"), true);
    c.Role("app", FetchOf("webserver"), false);
    c.Role("web", FetchOf("webserver"), false);
    c.Set("remote", Now(Str(Recipe.REMOTE)));
    c.Set("current_revision", Later(CaptureStripped(Recipe.REVISION_PREFIX, "current_path", Recipe.REVISION_SUFFIX)));
    c.Set("scm", Now(Sym("git")));
    c.Set("latest_release", Later(FetchOf("current_path")));
    c.Set("release_path", Later(FetchOf("current_path")));
    c.Set("current_release", Later(FetchOf("current_path")));
    c.Set("runner", Later(Interpolate(Recipe.RUNNER_PREFIX, "stage", Recipe.RUNNER_SUFFIX)));
    loaded := true;
  }

  /** The table the deploy configuration and Capistrano hold before loading. */
  function Preset(inp: Recipe.Inputs): map<string, Setting>
  {
    var base := map[
      "application" := Now(inp.application),
      "webserver" := Now(inp.webserver),
      "current_path" := Now(Str(inp.currentPath)),
      "shared_path" := Now(Str(inp.sharedPath))];
    if inp.stage.Some? then base["stage" := Now(inp.stage.value)] else base
  }

  // ------------------------------------------------------------ lemmas

  /** The keys the recipe's `set` calls write. */
  const RECIPE_KEYS: set<string> := {
    "repository", "stage", "rails_env", "user", "deploy_to", "branch", "remote", "current_revision",
    "scm", "latest_release", "release_path", "current_release", "runner"}

  /** The entries the recipe's `set` calls leave in a table t, the stage aside. */
  ghost predicate HasRecipeEntries(t: map<string, Setting>, app: Value)
  {
    && RECIPE_KEYS <= t.Keys
    && t["repository"] == Now(Str(Recipe.Repository(app)))
    && t["rails_env"] == Later(FetchOf("stage"))
    && t["user"] == Now(app)
    && t["deploy_to"] == Later(Interpolate(Recipe.HOME_PREFIX, "user", Recipe.APP_SUFFIX))
    && t["branch"] == Later(BranchOfStage("stage"))
    && t["remote"] == Now(Str(Recipe.REMOTE))
    && t["current_revision"] == Later(CaptureStripped(Recipe.REVISION_PREFIX, "current_path", Recipe.REVISION_SUFFIX))
    && t["scm"] == Now(Sym("git"))
    && t["latest_release"] == Later(FetchOf("current_path"))
    && t["release_path"] == Later(FetchOf("current_path"))
    && t["current_release"] == Later(FetchOf("current_path"))
    && t["runner"] == Later(Interpolate(Recipe.RUNNER_PREFIX, "stage", Recipe.RUNNER_SUFFIX))
  }

  /** The first two `set` calls write the repository and, when no stage
      exists, the default stage, and keep every other variable. */
  lemma StageDefaultedEntries(vars: map<string, Setting>, app: Value)
    ensures var t := StageDefaulted(vars, app);
      && t.Keys == vars.Keys + {"repository", "stage"}
      && t["repository"] == Now(Str(Recipe.Repository(app)))
      && t["stage"] == (if "stage" in vars then vars["stage"] else Now(Recipe.DEFAULT_STAGE))
      && (forall k :: k in vars && k != "repository" ==> t[k] == vars[k])
  {
    var withRepository := vars["repository" := Now(Str(Recipe.Repository(app)))];
    assert ("stage" in withRepository) == ("stage" in vars);
  }

  /** What each entry of the loaded table holds. */
  lemma LoadedEntries(vars: map<string, Setting>, app: Value)
    ensures var t := Loaded(vars, app);
      && HasRecipeEntries(t, app)
      && t.Keys == vars.Keys + RECIPE_KEYS
      && (forall k :: k in vars && k !in RECIPE_KEYS ==> t[k] == vars[k])
      && t["stage"] == (if "stage" in vars then vars["stage"] else Now(Recipe.DEFAULT_STAGE))
  {
    StageDefaultedEntries(vars, app);
  }

  /** The default stage is written only when no stage exists; an existing
      stage is left as it was. */
  lemma StageDefaultOnlyWhenAbsent(vars: map<string, Setting>, app: Value)
    ensures "stage" in Loaded(vars, app)
    ensures "stage" in vars ==> Loaded(vars, app)["stage"] == vars["stage"]
    ensures "stage" !in vars ==> Loaded(vars, app)["stage"] == Now(Str("staging"))
  {
    LoadedEntries(vars, app);
  }

  /** Fetching the recipe's settings from any table that holds its entries,
      a stage and a current_path. */
  lemma RecipeEntriesResolve(t: map<string, Setting>, app: Value, stage: Value, currentPath: string,
                             capture: string -> string, depth: nat)
    requires depth >= 1 && HasRecipeEntries(t, app)
    requires "stage" in t && t["stage"] == Now(stage)
    requires "current_path" in t && t["current_path"] == Now(Str(currentPath))
    ensures Resolve(t, "repository", capture, depth) == Some(Str(Recipe.Repository(app)))
    ensures Resolve(t, "stage", capture, depth) == Some(stage)
    ensures Resolve(t, "rails_env", capture, depth) == Some(stage)
    ensures Resolve(t, "user", capture, depth) == Some(app)
    ensures Resolve(t, "deploy_to", capture, depth) == Some(Str(Recipe.DeployTo(app)))
    ensures Resolve(t, "branch", capture, depth) == Some(Str(Recipe.BranchFor(stage)))
    ensures Resolve(t, "remote", capture, depth) == Some(Str(Recipe.REMOTE))
    ensures Resolve(t, "scm", capture, depth) == Some(Sym("git"))
    ensures Resolve(t, "current_revision", capture, depth) == Some(Str(Strip(capture(Recipe.RevisionQuery(currentPath)))))
    ensures Resolve(t, "latest_release", capture, depth) == Some(Str(currentPath))
    ensures Resolve(t, "release_path", capture, depth) == Some(Str(currentPath))
    ensures Resolve(t, "current_release", capture, depth) == Some(Str(currentPath))
    ensures Resolve(t, "runner", capture, depth) == Some(Str(Recipe.Runner(stage)))
  {
    assert Resolve(t, "stage", capture, depth - 1) == Some(stage);
    assert Resolve(t, "user", capture, depth - 1) == Some(app);
    assert Resolve(t, "current_path", capture, depth - 1) == Some(Str(currentPath));
  }

  /** Fetching each setting from the loaded table gives the value Recipe.Derive
      gives it: the repository locator, the stage (defaulting to "staging"),
      rails_env, user, deploy_to, the promotion branch, the remote, the
      captured and stripped revision, the three release aliases and the
      runner prefix. */
  lemma LoadedTableResolves(inp: Recipe.Inputs, capture: string -> string, depth: nat)
    requires depth >= 1
    ensures var vars := Loaded(Preset(inp), inp.application);
      var s := Recipe.Derive(inp, capture);
      && Resolve(vars, "repository", capture, depth) == Some(Str(s.repository))
      && Resolve(vars, "stage", capture, depth) == Some(s.stage)
      && Resolve(vars, "rails_env", capture, depth) == Some(s.railsEnv)
      && Resolve(vars, "user", capture, depth) == Some(s.user)
      && Resolve(vars, "deploy_to", capture, depth) == Some(Str(s.deployTo))
      && Resolve(vars, "branch", capture, depth) == Some(Str(s.branch))
      && Resolve(vars, "remote", capture, depth) == Some(Str(s.remote))
      && Resolve(vars, "scm", capture, depth) == Some(s.scm)
      && Resolve(vars, "current_revision", capture, depth) == Some(Str(s.currentRevision))
      && Resolve(vars, "latest_release", capture, depth) == Some(Str(s.latestRelease))
      && Resolve(vars, "release_path", capture, depth) == Some(Str(s.releasePath))
      && Resolve(vars, "current_release", capture, depth) == Some(Str(s.currentRelease))
      && Resolve(vars, "runner", capture, depth) == Some(Str(s.runner))
  {
    var preset := Preset(inp);
    var stage := if inp.stage.Some? then inp.stage.value else Recipe.DEFAULT_STAGE;
    LoadedEntries(preset, inp.application);
    assert "current_path" in preset && "current_path" !in RECIPE_KEYS;
    assert ("stage" in preset) == inp.stage.Some?;
    RecipeEntriesResolve(Loaded(preset, inp.application), inp.application, stage, inp.currentPath, capture, depth);
  }

  /** The derived settings are blocks: a stage set after the recipe is loaded
      is what rails_env, branch and runner then fetch. */
  lemma DeferredSettingsFollowStage(vars: map<string, Setting>, app: Value, stage: Value, capture: string -> string, depth: nat)
    requires depth >= 1
    ensures var later := Loaded(vars, app)["stage" := Now(stage)];
      && Resolve(later, "rails_env", capture, depth) == Some(stage)
      && Resolve(later, "branch", capture, depth) == Some(Str(Recipe.BranchFor(stage)))
      && Resolve(later, "runner", capture, depth) == Some(Str("RAILS_ENV=" + stage.text + " bundle exec"))
  {
    var later := Loaded(vars, app)["stage" := Now(stage)];
    LoadedEntries(vars, app);
    assert HasRecipeEntries(later, app);
    assert Resolve(later, "stage", capture, depth - 1) == Some(stage);
  }

  /** The db role (marked primary), the app role and the web role each gain one
      server definition, and in the loaded table each of the three evaluates
      to the webserver the deploy configuration set. */
  lemma RolesShareWebserver(roles: map<string, seq<RoleDef>>, inp: Recipe.Inputs, capture: string -> string, depth: nat)
    ensures Definitions(LoadedRoles(roles), "db") == Definitions(roles, "db") + [RoleDef(FetchOf("webserver"), true)]
    ensures Definitions(LoadedRoles(roles), "app") == Definitions(roles, "app") + [RoleDef(FetchOf("webserver"), false)]
    ensures Definitions(LoadedRoles(roles), "web") == Definitions(roles, "web") + [RoleDef(FetchOf("webserver"), false)]
    ensures forall name :: name !in {"db", "app", "web"} ==> Definitions(LoadedRoles(roles), name) == Definitions(roles, name)
    ensures var vars := Loaded(Preset(inp), inp.application);
      && Evaluate(vars, Definitions(LoadedRoles(roles), "db")[|Definitions(roles, "db")|].servers, capture, depth) == Some(inp.webserver)
      && Evaluate(vars, Definitions(LoadedRoles(roles), "app")[|Definitions(roles, "app")|].servers, capture, depth) == Some(inp.webserver)
      && Evaluate(vars, Definitions(LoadedRoles(roles), "web")[|Definitions(roles, "web")|].servers, capture, depth) == Some(inp.webserver)
  {
    LoadedEntries(Preset(inp), inp.application);
    assert "webserver" in Preset(inp) && "webserver" !in RECIPE_KEYS;
  }
}

=== FILE: wrappers.dfy ===
/** Option and Outcome, the two failure-carrying shapes the model needs. */
module Wrappers {

  datatype Option<+T> = None | Some(value: T)

  /** Pass, or Fail with the message a Ruby `raise` would carry. */
  datatype Outcome<+E> = Pass | Fail(error: E)
}
